=== FILE: README.md ===
# Flutter-vs-React benchmark coordination, modelled in Dafny

The system drives two renderer apps (a Flutter build and a React build, each
in its own iframe) through the same timed animation test and compares what
they report. This project models its two pieces of sequential logic as pure
functions over immutable state:

- the **coordinator page** (`main-app/coordinator.js`): READY handshake,
  start-enable rule, `startTest` with its clamped configuration, the
  `onMessage` dispatch of READY / PROGRESS / METRICS / COMPLETE / ERROR with
  stale-test rejection and field-wise "keep the last known value" merging, the
  progress bar that never moves backwards, `finishTest`, the per-metric winners
  and `scoreOverall`;
- the **React renderer** (`react-app/src/App.js`): the `collectMetrics` frame
  statistics (intervals, ascending sort, p95 by index
  `max(0, floor(0.95·n) − 1)`, share of intervals over 16.7 ms, frame rate),
  the bounded frame-timestamp history, the `startTest` run guard and reset,
  the progress interval that reports and finishes a run, and the PING /
  START_TEST dispatch.

Files and modules:

| file | module | contents |
|---|---|---|
| `wrappers.dfy` | `Wrappers` | `Option` (JavaScript `null` / `undefined`) |
| `numbers.dfy` | `Numbers` | `Math.min` / `Math.max` on reals |
| `wire.dfy` | `Wire` | apps, per-app pairs, test ids, configuration, wire metrics, message bodies and envelopes |
| `scoring.dfy` | `Scoring` | zero / infinity defaults for missing values, per-metric winners, `scoreOverall` and their properties |
| `coordinator.dfy` | `Coordinator` | coordinator state, start, timer tick, sender resolution, merge, progress, dispatch |
| `coordinator_props.dfy` | `CoordinatorProps` | handshake, stale rejection, merge, progress and completion properties |
| `frame_stats.dfy` | `FrameStats` | intervals, insertion sort, counting, p95, over-budget share, fps, report |
| `renderer.dfy` | `Renderer` | renderer state, frame / long-task / start / tick / message transitions |
| `renderer_props.dfy` | `RendererProps` | history window, single finish, run guard, validity |
| `end_to_end.dfy` | `EndToEnd` | renderer messages as the coordinator handles them |

Modelling choices:

- Inputs the browser supplies become parameters: the fresh test id
  (`Date.now()` in the source), clock readings (`performance.now()`), heap
  samples (`performance.memory`), long-task durations and the form fields.
- A message's `testId` is `Null`, `Undefined` or `Str(s)`, and the coordinator's
  own `testId` is `None` before the first run, so the strict `!==` comparison
  is reproduced exactly: a message carrying `testId: null` before any run is
  accepted, one without a `testId` never is.
- `x || 0` and `x || Infinity` are written out (`Scoring.OrZero`,
  `Scoring.OrInf`, with `Ext = Fin(v) | Inf`): an absent value and a reported 0
  score identically.
- The progress bar width is a real percentage; every timer tick, animation
  frame and interval tick is an explicit transition.
- Numbers are exact reals. The p95 index is `floor` of the exact product
  `n · 0.95`; for the history sizes the renderer keeps, the floating-point
  product floors to the same integer.

## Behaviour worth knowing

Properties of the code that a reader might not expect, each with the member
that states it:

- Per-metric comparisons are strict and missing values are defaulted with
  `||`, so a metric on which neither side is strictly better is shown as won
  by React, while `scoreOverall` gives nobody a point for it: equal snapshots
  show React on all three lines and a tie overall (`Scoring.EqualSnapshots`,
  `Scoring.ReactScoreAtMostWinners`).
- The p95 index is `max(0, floor(0.95·n) − 1)`, so for the intervals
  `[10, 10, 10, 10, 20]` the p95 is 10, the fourth smallest, not the largest
  (`FrameStats.P95Example`).
- ERROR only restyles the connection dot: `ready` stays set and, with no run
  going, start stays enabled (`CoordinatorProps.ErrorChangesNothing`).
- A repeated COMPLETE for the current test runs `finishTest` again and shows
  a fresh summary (`CoordinatorProps.DuplicateCompleteRescores`).
- A non-empty `app` field decides the sender whatever the origin; the origin
  port is only a fallback (`CoordinatorProps.SenderResolution`,
  `EndToEnd.PingHandshake`).
- PROGRESS moves the bar to 98 % of the reported fraction, or to a flat 98 %
  once the other app has completed, and never backwards
  (`Coordinator.ProgressWidth`, `CoordinatorProps.ProgressCapped`); only
  `finishTest` fills it (`CoordinatorProps.FullOnlyOnFinish`,
  `CoordinatorProps.TimerNeverFills`).
- A run's progress timer is cleared only when a tick finds `running` false.
  If a new run starts before that tick, the old timer keeps ticking with its
  own start time and duration, so the new run's bar can jump towards 95 %.
  `Coordinator.TimerTick` takes the duration and the elapsed time as
  parameters, so such a stale tick is an ordinary tick with a larger elapsed
  time.

## Model

| member | source | states |
|---|---|---|
| `Scoring.OrZero` | main-app/coordinator.js:243 | the zero default of `finishTest`: an absent frame rate reads as 0, a present one as itself |
| `Scoring.OrInf` | main-app/coordinator.js:244-245 | the infinity default: the result is +∞ exactly when the value is absent or 0, otherwise the value |
| `Scoring.Better` | main-app/coordinator.js:243-245 | the defaulted strict comparisons; no metric has two strict winners (`Scoring.BetterAsymmetric`) |
| `Scoring.Winner` | main-app/coordinator.js:243-245 | a per-metric line names Flutter exactly when Flutter is strictly better, React otherwise |
| `Scoring.Tally` | main-app/coordinator.js:258-260 | one metric gives at most one point, to Flutter exactly when it is strictly better, to React exactly when React is |
| `Scoring.Scores` | main-app/coordinator.js:256-260 | each side scores at most 3 and the two scores add up to at most 3 |
| `Scoring.BetterAsymmetric` | main-app/coordinator.js:258-260 | the two sides can never both be strictly better on the same metric |
| `Scoring.ScoresSwap` | main-app/coordinator.js:256-260 | exchanging the snapshots exchanges the two scores |
| `Scoring.ScoreOverallMeaning` | main-app/coordinator.js:261-262 | the verdict is a tie iff the scores are equal, otherwise the side with the higher score |
| `Scoring.ScoreOverallSwap` | main-app/coordinator.js:256-263 | exchanging the snapshots exchanges Flutter and React in the verdict |
| `Scoring.EqualSnapshots` | main-app/coordinator.js:243-263 | equal snapshots give a tie overall while every per-metric line names React |
| `Scoring.FlutterScoreCountsWinners` | main-app/coordinator.js:243-260 | Flutter's score equals the number of per-metric lines naming Flutter |
| `Scoring.ReactScoreAtMostWinners` | main-app/coordinator.js:243-260 | React's score is at most the number of lines naming React, with equality iff no metric is level |
| `Scoring.ZeroReadsAsAbsent` | main-app/coordinator.js:243-245 | the zero and infinity defaults read a reported 0 exactly as an absent value |
| `Scoring.SameReadingsSameSummary` | main-app/coordinator.js:243-263 | snapshots with the same defaulted readings get the same winners and verdict |
| `Scoring.ZeroIsAbsent` | main-app/coordinator.js:243-260 | a reported 0 and a missing value give the same winners and verdict on every metric |
| `Scoring.ScoreOverall` | main-app/coordinator.js:256-263 | a side wins overall only when it is strictly better on at least one metric |
| `Scoring.Summarize` | main-app/coordinator.js:243-251 | each per-metric line names Flutter exactly when Flutter is strictly better on that metric, the verdict is `scoreOverall`'s, and an overall winner has at least one line in its name |
| `Scoring.ScoringExamples` | main-app/coordinator.js:243-263 | a missing memory reading loses to a real one; 0 fps loses to 60 fps |
| `Coordinator.WorkloadFor` | main-app/coordinator.js:95-102 | the workload carries the selected test type and the fixed seed 1337, 600 particles, a 400 × 400 area and the `sinOrbit` move at speed 0.1 and amplitude 1 |
| `Coordinator.ConfigOf` | main-app/coordinator.js:94-107 | duration is the field clamped to 1–60 s (5 s when empty) in ms, with each clamp edge stated; iterations are the field when at least 1, exactly 1 below that, 1000 when empty; the workload is the fixed one of `WorkloadFor` with the selected test type |
| `Coordinator.Start` | main-app/coordinator.js:109-125 | a run starts with the fresh id and clamped config, no app completed, all metrics unknown, the bar at 0, readiness kept, and START_TEST broadcast |
| `Coordinator.OnStartClick` | main-app/coordinator.js:67-71 | a start click takes effect exactly when both apps are ready and no run is going, and leaves start disabled |
| `Coordinator.TimerTick` | main-app/coordinator.js:127-135 | a tick of a stopped run changes nothing; otherwise it changes only the bar, never lowers it, and sets it to exactly max(current, min(95 %, elapsed / duration · 100)) |
| `CoordinatorProps.TimerNeverFills` | main-app/coordinator.js:127-135 | a timer tick keeps the bar a percentage, leaves the run flag alone, and never takes a bar below 100 % to 100 % |
| `Coordinator.Merge` | main-app/coordinator.js:163-167 | per field, a present incoming value replaces the stored one and an absent one keeps exactly the stored value |
| `Coordinator.ClampUnit` | main-app/coordinator.js:151 | the reported progress is read into [0, 1]: unchanged inside, 1 above, 0 below or when absent |
| `Coordinator.ProgressWidth` | main-app/coordinator.js:151-157 | a PROGRESS never lowers the bar, keeps it at most 98 %, reaches 98 % of the report and a full 98 % once the other app is done; before that it goes no higher than max(current, 98 % of the report), and never higher than max(current, 98 %), so a full bar stays at 100 % |
| `Coordinator.FinishTest` | main-app/coordinator.js:207-251 | finishing stops the run, fills the bar to 100 % and shows the summary of the two stored snapshots |
| `Coordinator.Dispatch` | main-app/coordinator.js:143-204 | a summary is produced only by a COMPLETE that leaves both apps completed, and always by a matching COMPLETE when the other app had already completed |
| `Coordinator.OnMessage` | main-app/coordinator.js:138-141 | a message with no resolvable sender changes nothing |
| `Coordinator.Run` | main-app/coordinator.js:138-205 | no message sequence changes the session's test id or configuration, and a valid bar stays valid and never moves back |
| `CoordinatorProps.InitialState` | main-app/coordinator.js:39-50 | the page starts with nobody ready or completed, no session or configuration, unknown metrics, an empty bar, and start disabled |
| `Coordinator.CanStart` | main-app/coordinator.js:67-69 | the start-enable rule of `refreshStartBtnState`; from the initial state it holds exactly when both apps have sent READY (`CoordinatorProps.StartEnabledIffBothAcked`) |
| `Coordinator.PortToApp` | main-app/coordinator.js:30-37 | the origin-port table; exactly ports 8081 and 3000 resolve (`CoordinatorProps.PortTable`) |
| `Wire.AppNamed` | main-app/coordinator.js:141 | the `frames[app]` guard: a name resolves exactly when it is `flutter` or `react` |
| `Wire.NameRoundTrip` | main-app/coordinator.js:141 | a name resolves to an app exactly when it is the name that app's renderer puts on its messages |
| `Coordinator.ResolveSender` | main-app/coordinator.js:140-141 | the sender of a message: the `app` field when non-empty, the origin port otherwise (`CoordinatorProps.SenderResolution`) |
| `Coordinator.Matches` | main-app/coordinator.js:150 | the strict test-id check; a report that fails it changes nothing (`CoordinatorProps.StaleIgnored`) and every report of the current run passes it (`EndToEnd.ReportsAccepted`) |
| `CoordinatorProps.PortTable` | main-app/coordinator.js:30-37 | port 8081 resolves to Flutter, port 3000 to React, anything else to nobody |
| `CoordinatorProps.SenderResolution` | main-app/coordinator.js:140-141 | a non-empty `app` field alone decides the sender; without one, the origin port does |
| `CoordinatorProps.ReadyEffect` | main-app/coordinator.js:144-147 | READY sets its sender's ready flag and changes nothing else |
| `CoordinatorProps.ProgressEffect` | main-app/coordinator.js:149-157 | a matching PROGRESS from an app changes only the bar, to `ProgressWidth` for that app and value, and shows no summary |
| `CoordinatorProps.MetricsEffect` | main-app/coordinator.js:160-167 | a matching METRICS changes only the sender's snapshot, to the field-wise merge of the report (an absent report merging as an empty one); the other app's snapshot, readiness, completion, session and bar stay, and no summary is shown |
| `CoordinatorProps.OtherTypesIgnored` | main-app/coordinator.js:202-203 | PING, START_TEST and unknown message types change nothing at the coordinator |
| `CoordinatorProps.ReadyIdempotent` | main-app/coordinator.js:144-147 | a second identical READY changes nothing |
| `CoordinatorProps.ReadyEnablesStart` | main-app/coordinator.js:144-146 | with no run going, start is enabled right after a READY iff the other app was already ready |
| `CoordinatorProps.RunReady` | main-app/coordinator.js:138-205 | after any message sequence an app is ready iff it was before or one of the messages was its READY |
| `CoordinatorProps.RunNeverStarts` | main-app/coordinator.js:138-205 | no message starts a run |
| `CoordinatorProps.StartEnabledIffBothAcked` | main-app/coordinator.js:67-69 | from the initial state, start is enabled after a message sequence iff both apps sent READY in it |
| `CoordinatorProps.StaleIgnored` | main-app/coordinator.js:149-180 | PROGRESS, METRICS or COMPLETE for another test changes nothing |
| `CoordinatorProps.ErrorChangesNothing` | main-app/coordinator.js:197-200 | ERROR leaves readiness, run, metrics, completion and the bar unchanged, so start stays enabled |
| `CoordinatorProps.MergeIdempotent` | main-app/coordinator.js:163-167 | merging the same report twice equals merging it once |
| `CoordinatorProps.MergeDisjointCommutes` | main-app/coordinator.js:163-167 | reports carrying disjoint fields merge to the same snapshot in either order |
| `CoordinatorProps.MergeExample` | main-app/coordinator.js:160-167 | `{fps: 30}` then `{memoryMB: 50}` keeps both, and repeating the second is a no-op |
| `CoordinatorProps.MessageMonotone` | main-app/coordinator.js:155-157 | no message lowers the bar or takes it past 100 % |
| `CoordinatorProps.ProgressCapped` | main-app/coordinator.js:155-157 | PROGRESS alone never takes the bar beyond 98 % |
| `CoordinatorProps.FullOnlyOnFinish` | main-app/coordinator.js:207-211 | the bar reaches 100 % only when `finishTest` runs, which stops the run |
| `CoordinatorProps.FinishNeedsBoth` | main-app/coordinator.js:192-193 | a summary appears only for a matching COMPLETE that leaves both apps completed |
| `CoordinatorProps.CompleteOrderIndependent` | main-app/coordinator.js:179-195 | the two COMPLETE reports give the same state and summary in either order; only the second finishes |
| `CoordinatorProps.DuplicateCompleteRescores` | main-app/coordinator.js:192-193 | a repeated COMPLETE for the current test scores again |
| `CoordinatorProps.StartSupersedes` | main-app/coordinator.js:109-111 | after a new start, reports for the previous test id are dropped |
| `FrameStats.Intervals` | react-app/src/App.js:105-106 | there are max(0, n − 1) intervals and interval i is `ts[i+1] − ts[i]` |
| `FrameStats.IntervalsTelescope` | react-app/src/App.js:105-106 | the intervals add up to the last timestamp minus the first |
| `FrameStats.NondecreasingClockGivesNonnegativeIntervals` | react-app/src/App.js:105-106 | timestamps from a monotone clock give no negative interval |
| `FrameStats.Insert` | react-app/src/App.js:107 | inserting into a sorted sequence keeps it sorted and adds exactly that element |
| `FrameStats.Sort` | react-app/src/App.js:107 | the ascending sort is sorted and a permutation of its input |
| `FrameStats.Count` | react-app/src/App.js:109 | a count never exceeds the length |
| `FrameStats.CountInsert` | react-app/src/App.js:107-109 | inserting an element raises a count by one exactly when it qualifies |
| `FrameStats.CountSort` | react-app/src/App.js:107-109 | sorting does not change how many intervals satisfy a condition |
| `FrameStats.CountSorted` | react-app/src/App.js:107-108 | in sorted order, at most n − k − 1 elements exceed the k-th and at most k fall below it |
| `FrameStats.BelowMinimum` | react-app/src/App.js:107-108 | nothing in a sorted sequence falls below its first element |
| `FrameStats.P95Index` | react-app/src/App.js:108 | the p95 index lies in [0, n) for n > 0 and is floor(0.95·n) − 1 from n = 2 on |
| `FrameStats.P95Of` | react-app/src/App.js:107-108 | the pick is 0 for no intervals, otherwise one of them with at most n − k − 1 above it and at most k below it (k the p95 index) |
| `FrameStats.FrameMsP95` | react-app/src/App.js:104-108 | p95 is 0 without intervals, otherwise one of the intervals with at most n − k − 1 above it and at most k below it (k the p95 index) |
| `FrameStats.FramesOver16p` | react-app/src/App.js:109 | the over-budget share lies in [0, 1], is 0 without intervals, and is the count of unsorted intervals above 16.7 over n |
| `FrameStats.Share` | react-app/src/App.js:109 | a count out of n is a fraction in [0, 1] that times n gives the count back |
| `FrameStats.Fps` | react-app/src/App.js:113 | fps is non-negative and times `max(1, elapsed)` gives frames × 1000 |
| `FrameStats.MemoryMB` | react-app/src/App.js:111-112 | memory is reported exactly when the heap size is available, in MiB |
| `FrameStats.Collect` | react-app/src/App.js:103-119 | the report has the frame rate of `Fps` (frames × 1000 over `max(1, elapsed)`), the elapsed time as render time, as p95 an interval with at most n − k − 1 intervals above it and at most k below (k the p95 index), the exact share of intervals above 16.7 ms, memory in MiB exactly when a heap sample exists, and the long-task totals |
| `FrameStats.OnlyTenQualifies` | react-app/src/App.js:108 | among `[10, 10, 10, 10, 20]`, only 10 has at most three intervals below it |
| `FrameStats.P95OfExample` | react-app/src/App.js:107-108 | the pick over `[10, 10, 10, 10, 20]` is 10 |
| `FrameStats.P95Example` | react-app/src/App.js:108 | intervals `[10, 10, 10, 10, 20]` give index 3 and p95 10 |
| `FrameStats.IntervalsExample` | react-app/src/App.js:105-106 | timestamps 0, 10, 20, 30, 40, 60 give the intervals `[10, 10, 10, 10, 20]` |
| `Renderer.PushTimestamp` | react-app/src/App.js:98-99 | the history after a push is the most recent 1000 once 2000 would be exceeded, otherwise everything; it ends with the new timestamp |
| `Renderer.Frame` | react-app/src/App.js:96-99 | a frame adds one to the frame count and pushes its timestamp, nothing else |
| `Renderer.LongTask` | react-app/src/App.js:23-27 | a long task adds one to the count and its duration to the total, nothing else |
| `Renderer.DurationOf` | react-app/src/App.js:47 | the duration is the payload's, or 5000 when it is missing or 0; never 0 |
| `Renderer.StartTest` | react-app/src/App.js:37-51 | while running nothing changes; otherwise the run starts with the given id and duration, no long tasks, and the one frame recorded by the first `animate()` call (line 130) |
| `Renderer.ProgressAt` | react-app/src/App.js:133-134 | progress is at most 1, reaches 1 exactly when the duration has elapsed, and below 1 is the elapsed time as a fraction of the duration |
| `Renderer.CollectAt` | react-app/src/App.js:133-136 | the report over the current counters has the frame count's `Fps`, the elapsed time as render time, the history's p95 pick with its rank bounds, the exact over-budget share of the history's intervals, memory in MiB exactly when a heap sample exists, and the long-task totals |
| `Renderer.ToWire` | react-app/src/App.js:136 | the report travels with fps, render time, p95, over-budget share, long-task count and long-task total all present and equal to the report's, and memory exactly as reported |
| `Renderer.Tick` | react-app/src/App.js:131-138 | a running tick sends PROGRESS and METRICS, and COMPLETE with a stop exactly when progress reaches 1; a stopped one does nothing |
| `Renderer.OnMessage` | react-app/src/App.js:141-145 | PING is answered with READY, START_TEST starts a run, anything else is ignored |
| `RendererProps.HistoryIsSuffix` | react-app/src/App.js:98-99 | after any pushes the history is a suffix of everything pushed |
| `RendererProps.HistoryBounds` | react-app/src/App.js:98-99 | after any pushes the history holds between min(total, 1000) and 2000 timestamps |
| `RendererProps.HistoryIsRecentWindow` | react-app/src/App.js:98-99 | after any pushes the history is a suffix of everything pushed, holds at least the last min(total, 1000) and at most 2000 |
| `RendererProps.FinishesOnce` | react-app/src/App.js:121-138 | once a tick finishes the run, later ticks send nothing |
| `RendererProps.TickReportsRunId` | react-app/src/App.js:131-138 | every report names the run's test id, and COMPLETE is sent exactly when progress reaches 1 |
| `RendererProps.ValidPreserved` | react-app/src/App.js:98-99 | every transition keeps the history within 2000 and the duration non-zero |
| `RendererProps.InitValid` | react-app/src/App.js:9-18 | the renderer starts idle with an empty test id, a 5000 ms duration, an empty history and zero frame and long-task counters |
| `RendererProps.RunGuard` | react-app/src/App.js:37-50 | START_TEST during a run changes nothing; otherwise it runs with the new id and restarted counters |
| `EndToEnd.FromReact` | react-app/src/App.js:147 | every message the React renderer sends resolves to React at the coordinator, whatever the origin, and carries its body unchanged |
| `EndToEnd.PingHandshake` | react-app/src/App.js:143 | the renderer answers PING with READY, which marks React ready at the coordinator whatever the origin |
| `EndToEnd.RendererAdoptsRun` | react-app/src/App.js:36-47 | an idle renderer adopts the coordinator's test id and clamped duration, and its id passes the coordinator's check |
| `EndToEnd.ReportsAccepted` | react-app/src/App.js:131-137 | every message a running renderer sends on a tick is a PROGRESS, METRICS or COMPLETE that passes the coordinator's test-id check |
| `EndToEnd.CompleteStoresReport` | main-app/coordinator.js:179-190 | a matching COMPLETE marks React complete and stores its fps and render time, keeping memory when none is reported |

## Left out

- DOM and UI: element lookups, `setConn` dot and label styling, `resetUI` text, the summary HTML and number formatting, Chart.js (main-app/coordinator.js:2-23, 57-65, 73-83, 217-253). `resetUI` only matters through the bar width, which `Coordinator.Start` resets to 0.
- Transport: `postMessage`, the `'*'` target origins and the transport failure warning; messages are datatype values.
- Timers and animation scheduling (`setInterval`, `requestAnimationFrame`, `cancelAnimationFrame`): each tick or frame is a transition taking its clock readings as inputs.
- Canvas drawing, the CPU loop, DPR scaling, the particle set and the `mulberry32` generator, which is not part of this model; the workload fields other than the duration are passed through only.
- Browser measurements: the `PerformanceObserver` set-up and `performance.memory`; long-task entries and heap samples are inputs.
- The renderer's initial READY at mount and its effect clean-up: the initial READY is the same body as the PING reply.
- The progress width's `toFixed(1)` / `parseFloat` string round trip; the width is a real and starts at 0.
- `Date.now()` test ids: the fresh id is a parameter.
- Floating-point behaviour: NaN from non-numeric fields (`Number('abc')`), rounding of `n · 0.95`, of the fps division and of the MiB conversion.
- The `frames[app]` guard for names inherited from `Object.prototype` (such as `constructor`): only `flutter` and `react` resolve.
- A START_TEST payload without a `durationMs` field: the coordinator always sends one, so a payload always carries a number here.
- `state.chart` and the `config` field beyond what `Start` records.

=== FILE: coordinator.dfy ===
/**
 * The coordinator page's protocol state machine (main-app/coordinator.js):
 * liveness flags, the running test session, per-app metrics merged from
 * renderer reports, the progress bar width and the final scoring.
 * DOM updates are left out; the progress bar width (a percentage) and the
 * results summary are kept because the protocol decides them.
 */
module Coordinator {
  import opened Wrappers
  import opened Wire
  import opened Scoring
  import opened Numbers

  /** The coordinator's `state` record plus the progress bar width in percent. */
  datatype State = State(
    ready: PerApp<bool>,
    running: bool,
    testId: Option<string>,
    config: Option<Config>,
    metrics: PerApp<Snapshot>,
    completed: PerApp<bool>,
    width: real)

  const Init: State :=
    State(PerApp(false, false), false, None, None, PerApp(Unknown, Unknown), PerApp(false, false), 0.0)

  /** The result of handling one message: the next state and, when `finishTest` ran, the summary it shows. */
  datatype Step = Step(state: State, summary: Option<Summary>)

  /** The progress width stays a percentage. */
  predicate Valid(st: State) {
    0.0 <= st.width <= 100.0
  }

  // ---------------------------------------------------------------- start

  /** `refreshStartBtnState`: the start button is enabled when both apps are ready and no run is going. */
  predicate CanStart(st: State) {
    st.ready.flutter && st.ready.react && !st.running
  }

  /** The form fields read by `startTest`; `None` is an empty field. */
  datatype Form = Form(duration: Option<real>, iterations: Option<real>, testType: string)

  /** The fixed workload the coordinator sends. */
  function WorkloadFor(testType: string): (w: Workload)
    ensures w.testType == testType
    ensures w.seed == 1337 && w.particleCount == 600 && w.width == 400 && w.height == 400
    ensures w.moveType == "sinOrbit" && w.speed == 0.1 && w.amp == 1.0
  {
    Workload(testType, 1337, 600, 400, 400, "sinOrbit", 0.1, 1.0)
  }

  /** The run configuration: duration clamped to 1–60 s (default 5), iterations at least 1 (default 1000). */
  function ConfigOf(form: Form): (cfg: Config)
    ensures 1000.0 <= cfg.durationMs <= 60000.0
    ensures form.duration == None ==> cfg.durationMs == 5000.0
    ensures form.duration.Some? && 1.0 <= form.duration.value <= 60.0 ==> cfg.durationMs == form.duration.value * 1000.0
    ensures form.duration.Some? && form.duration.value < 1.0 ==> cfg.durationMs == 1000.0
    ensures form.duration.Some? && form.duration.value > 60.0 ==> cfg.durationMs == 60000.0
    ensures cfg.iterations >= 1.0
    ensures form.iterations == None ==> cfg.iterations == 1000.0
    ensures form.iterations.Some? && form.iterations.value >= 1.0 ==> cfg.iterations == form.iterations.value
    ensures form.iterations.Some? && form.iterations.value < 1.0 ==> cfg.iterations == 1.0
    ensures cfg.spec.testType == form.testType
    ensures cfg.spec == WorkloadFor(form.testType)
  {
    var durationSec := Max(1.0, Min(60.0, form.duration.GetOr(5.0)));
    Config(Max(1.0, form.iterations.GetOr(1000.0)), durationSec * 1000.0, WorkloadFor(form.testType))
  }

  /** The outcome of `startTest`: the new state and the START_TEST body sent to both apps. */
  datatype Launch = Launch(state: State, broadcast: Body)

  /** `startTest` with a fresh test id (the source uses the wall clock). */
  function Start(st: State, form: Form, freshId: string): (l: Launch)
    ensures l.state.running
    ensures l.state.testId == Some(freshId)
    ensures l.state.config == Some(ConfigOf(form))
    ensures !l.state.completed.flutter && !l.state.completed.react
    ensures l.state.metrics == PerApp(Unknown, Unknown)
    ensures l.state.width == 0.0
    ensures l.state.ready == st.ready
    ensures l.broadcast == Body.StartTest(Str(freshId), Some(ConfigOf(form)))
  {
    var cfg := ConfigOf(form);
    var st' := State(st.ready, true, Some(freshId), Some(cfg), PerApp(Unknown, Unknown), PerApp(false, false), 0.0);
    Launch(st', Body.StartTest(Str(freshId), Some(cfg)))
  }

  /** A click on the start button: it only fires while the button is enabled. */
  function OnStartClick(st: State, form: Form, freshId: string): (r: Option<Launch>)
    ensures r.Some? <==> CanStart(st)
    ensures r.Some? ==> r.value == Start(st, form, freshId) && !CanStart(r.value.state)
  {
    if CanStart(st) then Some(Start(st, form, freshId)) else None
  }

  /**
   * One tick of the progress timer created by `startTest`; `durationMs` is the
   * duration of that run and `elapsed` the time since it started. A stopped
   * run leaves everything as it is.
   */
  function TimerTick(st: State, durationMs: real, elapsed: real): (st': State)
    requires durationMs > 0.0
    ensures !st.running ==> st' == st
    ensures st' == st.(width := st'.width)
    ensures st'.width >= st.width
    ensures st'.width <= Max(st.width, 95.0)
    ensures st.running ==> st'.width == Max(st.width, Min(0.95, elapsed / durationMs) * 100.0)
    ensures st.width <= 95.0 ==> st'.width <= 95.0
    ensures st.running && elapsed >= 0.0 ==> st'.width >= Min(95.0, elapsed / durationMs * 100.0)
  {
    if !st.running then st
    else
      var p := Min(0.95, elapsed / durationMs);
      if st.width < p * 100.0 then st.(width := p * 100.0) else st
  }

  // ---------------------------------------------------------------- messages

  /** `PORT_TO_APP`: port 8081 is Flutter, port 3000 is React, anything else is nobody. */
  function PortToApp(o: Origin): Option<App> {
    match o
    case Url(port) => if port == "8081" then Some(Flutter) else if port == "3000" then Some(React) else None
    case Malformed => None
  }

  /** `data.app || PORT_TO_APP(e.origin)`, then the `frames[app]` guard. */
  function ResolveSender(app: Option<string>, o: Origin): Option<App> {
    if app.Some? && app.value != "" then AppNamed(app.value) else PortToApp(o)
  }

  /** `data.testId === state.testId`, with `null` on the coordinator side before the first run. */
  predicate Matches(id: TestId, current: Option<string>) {
    match id
    case Null => current.None?
    case Undefined => false
    case Str(s) => current == Some(s)
  }

  /** Field-wise `incoming ?? old`: a field that arrives absent keeps the last known value. */
  function Merge(prev: Snapshot, m: WireMetrics): (s: Snapshot)
    ensures m.fps.None? ==> s.fps == prev.fps
    ensures m.memoryMB.None? ==> s.memoryMB == prev.memoryMB
    ensures m.renderTimeMs.None? ==> s.renderTimeMs == prev.renderTimeMs
    ensures m.fps.Some? ==> s.fps == m.fps
    ensures m.memoryMB.Some? ==> s.memoryMB == m.memoryMB
    ensures m.renderTimeMs.Some? ==> s.renderTimeMs == m.renderTimeMs
    ensures m.fps.None? && m.memoryMB.None? && m.renderTimeMs.None? ==> s == prev
  {
    Snapshot(m.fps.OrElse(prev.fps), m.memoryMB.OrElse(prev.memoryMB), m.renderTimeMs.OrElse(prev.renderTimeMs))
  }

  /** `Math.max(0, Math.min(1, Number(data.value || 0)))`. */
  function ClampUnit(value: Option<real>): (p: real)
    ensures 0.0 <= p <= 1.0
    ensures value.Some? && 0.0 <= value.value <= 1.0 ==> p == value.value
    ensures value.Some? && value.value > 1.0 ==> p == 1.0
    ensures value.None? || value.value < 0.0 ==> p == 0.0
  {
    Max(0.0, Min(1.0, value.GetOr(0.0)))
  }

  /** The bar after a PROGRESS report from `app`: never lower, at most 98%, full 98% once the other app is done. */
  function ProgressWidth(st: State, app: App, value: Option<real>): (w: real)
    ensures w >= st.width
    ensures st.width <= 98.0 ==> w <= 98.0
    ensures st.completed.Get(app.Other()) ==> w >= 98.0
    ensures w >= ClampUnit(value) * 98.0
    ensures w <= Max(st.width, 98.0)
    ensures !st.completed.Get(app.Other()) ==> w <= Max(st.width, ClampUnit(value) * 98.0)
  {
    var p := ClampUnit(value);
    Max(st.width, (if st.completed.Get(app.Other()) then 1.0 else p) * 98.0)
  }

  /** `finishTest`: stop the run, fill the bar and score the two snapshots. */
  function FinishTest(st: State): (s: Step)
    ensures !s.state.running && s.state.width == 100.0
    ensures s.summary == Some(Summarize(st.metrics.flutter, st.metrics.react))
    ensures s.state == st.(running := false, width := 100.0)
  {
    Step(st.(running := false, width := 100.0), Some(Summarize(st.metrics.flutter, st.metrics.react)))
  }

  /** The `switch` of `onMessage`, once the sender is known. */
  function Dispatch(st: State, app: App, body: Body): (s: Step)
    ensures s.summary.Some? ==> body.Complete? && s.state.completed.flutter && s.state.completed.react
    ensures body.Complete? && Matches(body.testId, st.testId) && st.completed.Get(app.Other()) ==> s.summary.Some?
  {
    match body
    case Ready => Step(st.(ready := st.ready.Set(app, true)), None)
    case Progress(id, value) =>
      if !Matches(id, st.testId) then Step(st, None)
      else Step(st.(width := ProgressWidth(st, app, value)), None)
    case Metrics(id, m) =>
      if !Matches(id, st.testId) then Step(st, None)
      else Step(st.(metrics := st.metrics.Set(app, Merge(st.metrics.Get(app), m.GetOr(NoMetrics)))), None)
    case Complete(id, m) =>
      if !Matches(id, st.testId) then Step(st, None)
      else
        var merged := if m.Some? then st.metrics.Set(app, Merge(st.metrics.Get(app), m.value)) else st.metrics;
        var st' := st.(completed := st.completed.Set(app, true), metrics := merged);
        if st'.completed.flutter && st'.completed.react then FinishTest(st') else Step(st', None)
    case Error(_) => Step(st, None)
    case _ => Step(st, None)
  }

  /** `onMessage`: resolve the sender, drop the message when there is none, otherwise dispatch. */
  function OnMessage(st: State, e: Envelope): (s: Step)
    ensures ResolveSender(e.app, e.origin).None? ==> s == Step(st, None)
  {
    match ResolveSender(e.app, e.origin)
    case None => Step(st, None)
    case Some(app) => Dispatch(st, app, e.body)
  }

  /**
   * The state after a sequence of messages: no message changes the session
   * (test id and configuration), and a valid bar only ever moves forward.
   */
  function Run(st: State, es: seq<Envelope>): (r: State)
    ensures r.testId == st.testId && r.config == st.config
    ensures Valid(st) ==> Valid(r) && r.width >= st.width
    decreases |es|
  {
    if es == [] then st else Run(OnMessage(st, es[0]).state, es[1..])
  }
}

=== FILE: coordinator_props.dfy ===
/**
 * Properties of the coordinator state machine: sender resolution, the
 * start-enable rule, stale-message rejection, metrics merging, the
 * monotone progress bar and completion.
 */
module CoordinatorProps {
  import opened Wrappers
  import opened Wire
  import opened Scoring
  import opened Coordinator

  /** The origin table: port 8081 is Flutter, port 3000 is React; other ports and unparsable origins are nobody. */
  lemma PortTable(o: Origin, a: App)
    ensures PortToApp(o) == Some(a) <==> o == Url(if a == Flutter then "8081" else "3000")
  {
  }

  /** The page starts with nobody ready, no session, no metrics, and the bar empty, so start is disabled. */
  lemma InitialState()
    ensures Valid(Init) && !CanStart(Init) && !Init.running
    ensures Init.testId.None? && Init.config.None? && Init.width == 0.0
    ensures !Init.ready.Get(Flutter) && !Init.ready.Get(React)
    ensures Init.metrics.Get(Flutter) == Unknown && Init.metrics.Get(React) == Unknown
    ensures !Init.completed.Get(Flutter) && !Init.completed.Get(React)
  {
  }

  /** An explicit `app` field decides the sender; otherwise only ports 8081 and 3000 resolve. */
  lemma SenderResolution(app: Option<string>, o: Origin, a: App)
    ensures app.Some? && app.value != "" ==>
              (ResolveSender(app, o) == Some(a) <==> app.value == Name(a))
    ensures (app.None? || app == Some("")) ==>
              (ResolveSender(app, o) == Some(a) <==> o == Url(if a == Flutter then "8081" else "3000"))
  {
  }

  /** Whether some message in `es` is a READY that resolves to `a`. */
  predicate AckedBy(es: seq<Envelope>, a: App) {
    exists i :: 0 <= i < |es| && es[i].body == Ready && ResolveSender(es[i].app, es[i].origin) == Some(a)
  }

  /** READY marks its sender ready and changes nothing else. */
  lemma ReadyEffect(st: State, e: Envelope, a: App)
    requires e.body == Ready && ResolveSender(e.app, e.origin) == Some(a)
    ensures OnMessage(st, e) == Step(st.(ready := st.ready.Set(a, true)), None)
  {
  }

  /** A matching PROGRESS moves only the bar, to `ProgressWidth`, and finishes nothing. */
  lemma ProgressEffect(st: State, e: Envelope, a: App)
    requires e.body.Progress? && Matches(e.body.testId, st.testId)
    requires ResolveSender(e.app, e.origin) == Some(a)
    ensures OnMessage(st, e) == Step(st.(width := ProgressWidth(st, a, e.body.value)), None)
  {
  }

  /**
   * A matching METRICS replaces only the sender's snapshot, by the field-wise
   * merge of the report (an absent report merges as an empty one), and
   * finishes nothing.
   */
  lemma MetricsEffect(st: State, e: Envelope, a: App)
    requires e.body.Metrics? && Matches(e.body.testId, st.testId)
    requires ResolveSender(e.app, e.origin) == Some(a)
    ensures OnMessage(st, e).summary.None?
    ensures OnMessage(st, e).state == st.(metrics := OnMessage(st, e).state.metrics)
    ensures OnMessage(st, e).state.metrics.Get(a.Other()) == st.metrics.Get(a.Other())
    ensures OnMessage(st, e).state.metrics.Get(a) == Merge(st.metrics.Get(a), e.body.metrics.GetOr(NoMetrics))
  {
  }

  /** PING, START_TEST and unknown types, arriving at the coordinator, change nothing. */
  lemma OtherTypesIgnored(st: State, e: Envelope)
    requires e.body.Ping? || e.body.StartTest? || e.body.Other?
    ensures OnMessage(st, e) == Step(st, None)
  {
  }

  /** READY is idempotent. */
  lemma ReadyIdempotent(st: State, e: Envelope)
    requires e.body == Ready
    ensures OnMessage(OnMessage(st, e).state, e) == OnMessage(st, e)
  {
  }

  /** Right after the second app's READY, with no run going, start is enabled; before it, it is not. */
  lemma ReadyEnablesStart(st: State, e: Envelope, a: App)
    requires e.body == Ready && ResolveSender(e.app, e.origin) == Some(a)
    requires !st.running
    ensures CanStart(OnMessage(st, e).state) <==> st.ready.Get(a.Other())
  {
  }

  /** Readiness after a sequence of messages: ready before, or acknowledged by some READY. */
  lemma {:induction false} RunReady(st: State, es: seq<Envelope>, a: App)
    ensures Run(st, es).ready.Get(a) <==> st.ready.Get(a) || AckedBy(es, a)
    decreases |es|
  {
    if es != [] {
      var st1 := OnMessage(st, es[0]).state;
      RunReady(st1, es[1..], a);
      assert st1.ready.Get(a) <==> st.ready.Get(a) || (es[0].body == Ready && ResolveSender(es[0].app, es[0].origin) == Some(a));
      if AckedBy(es[1..], a) {
        var i :| 0 <= i < |es[1..]| && es[1..][i].body == Ready && ResolveSender(es[1..][i].app, es[1..][i].origin) == Some(a);
        assert es[i + 1] == es[1..][i];
      }
      if AckedBy(es, a) && !st.ready.Get(a) && !(es[0].body == Ready && ResolveSender(es[0].app, es[0].origin) == Some(a)) {
        var i :| 0 <= i < |es| && es[i].body == Ready && ResolveSender(es[i].app, es[i].origin) == Some(a);
        assert i > 0;
        assert es[1..][i - 1] == es[i];
      }
    }
  }

  /** Messages never start a run. */
  lemma {:induction false} RunNeverStarts(st: State, es: seq<Envelope>)
    requires !st.running
    ensures !Run(st, es).running
    decreases |es|
  {
    if es != [] {
      RunNeverStarts(OnMessage(st, es[0]).state, es[1..]);
    }
  }

  /** From the initial state, start becomes enabled exactly when both apps have sent READY. */
  lemma StartEnabledIffBothAcked(es: seq<Envelope>)
    ensures CanStart(Run(Init, es)) <==> AckedBy(es, Flutter) && AckedBy(es, React)
  {
    RunReady(Init, es, Flutter);
    RunReady(Init, es, React);
    RunNeverStarts(Init, es);
  }

  /** A PROGRESS, METRICS or COMPLETE for another test changes nothing. */
  lemma StaleIgnored(st: State, e: Envelope)
    requires e.body.Progress? || e.body.Metrics? || e.body.Complete?
    requires !Matches(e.body.testId, st.testId)
    ensures OnMessage(st, e) == Step(st, None)
  {
  }

  /** ERROR changes no part of the state: readiness, run, metrics, completion and progress stay. */
  lemma ErrorChangesNothing(st: State, e: Envelope)
    requires e.body.Error?
    ensures OnMessage(st, e) == Step(st, None)
    ensures CanStart(st) ==> CanStart(OnMessage(st, e).state)
  {
  }

  /** Merging the same report twice is merging it once. */
  lemma MergeIdempotent(s: Snapshot, m: WireMetrics)
    ensures Merge(Merge(s, m), m) == Merge(s, m)
  {
  }

  /** Reports that carry disjoint fields can be merged in either order. */
  lemma MergeDisjointCommutes(s: Snapshot, m1: WireMetrics, m2: WireMetrics)
    requires m1.fps.None? || m2.fps.None?
    requires m1.memoryMB.None? || m2.memoryMB.None?
    requires m1.renderTimeMs.None? || m2.renderTimeMs.None?
    ensures Merge(Merge(s, m1), m2) == Merge(Merge(s, m2), m1)
  {
  }

  /** `{fps: 30}` then `{memoryMB: 50}` keeps both; repeating the second changes nothing. */
  lemma MergeExample(st: State, id: string, a: App)
    requires st.testId == Some(id) && st.metrics.Get(a) == Unknown
    ensures
      var m1 := NoMetrics.(fps := Some(30.0));
      var m2 := NoMetrics.(memoryMB := Some(50.0));
      var s1 := Dispatch(st, a, Metrics(Str(id), Some(m1))).state;
      var s2 := Dispatch(s1, a, Metrics(Str(id), Some(m2))).state;
      && s2.metrics.Get(a) == Snapshot(Some(30.0), Some(50.0), None)
      && Dispatch(s2, a, Metrics(Str(id), Some(m2))).state == s2
  {
  }

  /** No message lowers the progress bar or pushes it past 100%. */
  lemma MessageMonotone(st: State, e: Envelope)
    requires Valid(st)
    ensures Valid(OnMessage(st, e).state)
    ensures OnMessage(st, e).state.width >= st.width
  {
  }

  /**
   * The progress timer keeps the bar a percentage, never moves the run flag,
   * and never fills the bar: a bar below 100% stays below it.
   */
  lemma TimerNeverFills(st: State, durationMs: real, elapsed: real)
    requires durationMs > 0.0 && Valid(st)
    ensures Valid(TimerTick(st, durationMs, elapsed))
    ensures TimerTick(st, durationMs, elapsed).running == st.running
    ensures st.width < 100.0 ==> TimerTick(st, durationMs, elapsed).width < 100.0
  {
  }

  /** PROGRESS alone never takes the bar beyond 98%. */
  lemma ProgressCapped(st: State, e: Envelope)
    requires e.body.Progress? && st.width <= 98.0
    ensures OnMessage(st, e).state.width <= 98.0
  {
  }

  /** The bar only reaches 100% when `finishTest` runs. */
  lemma FullOnlyOnFinish(st: State, e: Envelope)
    requires st.width < 100.0
    requires OnMessage(st, e).state.width == 100.0
    ensures OnMessage(st, e).summary.Some?
    ensures !OnMessage(st, e).state.running
  {
  }

  /** `finishTest` runs only once both apps have completed, and it stops the run. */
  lemma FinishNeedsBoth(st: State, e: Envelope)
    requires OnMessage(st, e).summary.Some?
    ensures e.body.Complete? && Matches(e.body.testId, st.testId)
    ensures OnMessage(st, e).state.completed.flutter && OnMessage(st, e).state.completed.react
    ensures !OnMessage(st, e).state.running && OnMessage(st, e).state.width == 100.0
  {
  }

  /**
   * The two COMPLETE reports lead to the same state and the same summary in
   * either arrival order; only the second one finishes the test.
   */
  lemma CompleteOrderIndependent(st: State, id: TestId, mf: Option<WireMetrics>, mr: Option<WireMetrics>)
    requires Matches(id, st.testId)
    requires !st.completed.flutter && !st.completed.react
    ensures
      var f1 := Dispatch(st, Flutter, Complete(id, mf));
      var r1 := Dispatch(st, React, Complete(id, mr));
      var a := Dispatch(f1.state, React, Complete(id, mr));
      var b := Dispatch(r1.state, Flutter, Complete(id, mf));
      && f1.summary.None? && r1.summary.None?
      && a == b
      && a.summary == Some(Summarize(
           if mf.Some? then Merge(st.metrics.flutter, mf.value) else st.metrics.flutter,
           if mr.Some? then Merge(st.metrics.react, mr.value) else st.metrics.react))
  {
  }

  /** Nothing stops a repeated COMPLETE for the current test from scoring again. */
  lemma DuplicateCompleteRescores(st: State, a: App, id: TestId, m: Option<WireMetrics>)
    requires Matches(id, st.testId)
    requires st.completed.flutter && st.completed.react
    ensures Dispatch(st, a, Complete(id, m)).summary.Some?
  {
  }

  /** Whatever state a new start replaces, PROGRESS, METRICS and COMPLETE of the old test are dropped afterwards. */
  lemma StartSupersedes(st: State, form: Form, oldId: string, freshId: string, e: Envelope)
    requires st.testId == Some(oldId) && oldId != freshId
    requires e.body.Progress? || e.body.Metrics? || e.body.Complete?
    requires e.body.testId == Str(oldId)
    ensures
      var s := Start(st, form, freshId).state;
      OnMessage(s, e) == Step(s, None)
  {
  }
}

=== FILE: end_to_end.dfy ===
/**
 * How the two sides fit together: messages the React renderer produces,
 * wrapped with its `app: 'react'` field, as the coordinator handles them.
 */
module EndToEnd {
  import opened Wrappers
  import opened Wire
  import C = Coordinator
  import R = Renderer
  import FrameStats
  import RendererProps

  /** The envelope of a renderer message: `{ app: 'react', ...msg }`, whatever the origin. */
  function FromReact(o: Origin, b: Body): (e: Envelope)
    ensures C.ResolveSender(e.app, e.origin) == Some(React)
    ensures e.body == b
  {
    Envelope(Some(Name(React)), o, b)
  }

  /** The reply to a PING, once delivered, marks React ready, whatever origin the transport reports. */
  lemma PingHandshake(cst: C.State, rst: R.State, o: Origin, now: real, firstFrameAt: real)
    ensures R.OnMessage(rst, Ping, now, firstFrameAt).sent == [Ready]
    ensures C.OnMessage(cst, FromReact(o, Ready)).state.ready.react
    ensures C.OnMessage(cst, FromReact(o, Ready)).state.ready.flutter == cst.ready.flutter
  {
  }

  /** An idle renderer adopts the coordinator's run: the same test id and the clamped duration. */
  lemma RendererAdoptsRun(cst: C.State, form: C.Form, freshId: string, rst: R.State, now: real, firstFrameAt: real)
    requires !rst.running
    ensures
      var rs := R.OnMessage(rst, C.Start(cst, form, freshId).broadcast, now, firstFrameAt).state;
      && rs.running
      && rs.testId == Str(freshId)
      && rs.durationMs == C.ConfigOf(form).durationMs
      && C.Matches(rs.testId, C.Start(cst, form, freshId).state.testId)
  {
  }

  /** Every report a renderer sends during a run passes the coordinator's check when the ids agree. */
  lemma ReportsAccepted(cst: C.State, rs: R.State, id: string, r: R.Readings)
    requires rs.running && rs.durationMs != 0.0
    requires rs.testId == Str(id) && cst.testId == Some(id)
    ensures forall i :: 0 <= i < |R.Tick(rs, r).sent| ==>
      var b := R.Tick(rs, r).sent[i];
      (b.Progress? || b.Metrics? || b.Complete?) && C.Matches(b.testId, cst.testId)
  {
    RendererProps.TickReportsRunId(rs, r);
  }

  /**
   * A renderer's COMPLETE, delivered during the matching run, marks React
   * complete and stores its frame rate and render time; a missing memory
   * reading keeps what the coordinator already knew.
   */
  lemma CompleteStoresReport(cst: C.State, id: string, rep: FrameStats.Report, o: Origin)
    requires cst.testId == Some(id)
    ensures
      var s := C.OnMessage(cst, FromReact(o, Complete(Str(id), Some(R.ToWire(rep))))).state;
      && s.completed.react
      && s.metrics.react.fps == Some(rep.fps)
      && s.metrics.react.renderTimeMs == Some(rep.renderTimeMs)
      && s.metrics.react.memoryMB == (if rep.memoryMB.Some? then rep.memoryMB else cst.metrics.react.memoryMB)
      && s.metrics.flutter == cst.metrics.flutter
  {
  }
}

=== FILE: frame_stats.dfy ===
/**
 * The frame statistics a renderer reports (`collectMetrics` in
 * react-app/src/App.js): inter-frame intervals, their ascending sort, the
 * p95 interval picked by index `max(0, floor(0.95·n) − 1)`, the share of
 * intervals over 16.7 ms and the frame rate. Numbers are exact reals;
 * floating-point rounding is not modelled.
 */
module FrameStats {
  import opened Wrappers

  /** Consecutive differences of the timestamps. */
  function Intervals(ts: seq<real>): (d: seq<real>)
    ensures |d| == if |ts| == 0 then 0 else |ts| - 1
    ensures forall i :: 0 <= i < |d| ==> d[i] == ts[i + 1] - ts[i]
    decreases |ts|
  {
    if |ts| < 2 then [] else [ts[1] - ts[0]] + Intervals(ts[1..])
  }

  function Sum(s: seq<real>): real
    decreases |s|
  {
    if s == [] then 0.0 else s[0] + Sum(s[1..])
  }

  /** The intervals add up to the span from the first to the last timestamp. */
  lemma {:induction false} IntervalsTelescope(ts: seq<real>)
    requires |ts| > 0
    ensures Sum(Intervals(ts)) == ts[|ts| - 1] - ts[0]
    decreases |ts|
  {
    if |ts| >= 2 {
      IntervalsTelescope(ts[1..]);
    }
  }

  /** Timestamps read from a monotone clock give no negative interval. */
  lemma NondecreasingClockGivesNonnegativeIntervals(ts: seq<real>)
    requires forall i :: 0 <= i < |ts| - 1 ==> ts[i] <= ts[i + 1]
    ensures forall i :: 0 <= i < |Intervals(ts)| ==> Intervals(ts)[i] >= 0.0
  {
  }

  predicate Sorted(s: seq<real>) {
    forall i, j :: 0 <= i <= j < |s| ==> s[i] <= s[j]
  }

  /** Insert `x` into a sorted sequence. */
  function Insert(x: real, s: seq<real>): (r: seq<real>)
    requires Sorted(s)
    ensures Sorted(r)
    ensures multiset(r) == multiset(s) + multiset{x}
    ensures |r| == |s| + 1
    ensures r[0] == if s == [] || x <= s[0] then x else s[0]
    decreases |s|
  {
    if s == [] then [x]
    else if x <= s[0] then [x] + s
    else
      var t := Insert(x, s[1..]);
      assert s == [s[0]] + s[1..];
      assert t[0] >= s[0];
      var r := [s[0]] + t;
      assert Sorted(r) by {
        forall i, j | 0 <= i <= j < |r| ensures r[i] <= r[j] {
          if 0 < i {
            assert r[i] == t[i - 1] && r[j] == t[j - 1];
          } else if 0 < j {
            assert r[j] == t[j - 1] >= t[0];
          }
        }
      }
      r
  }

  /** `d.sort((a, b) => a - b)`: ascending order, same elements. */
  function Sort(s: seq<real>): (r: seq<real>)
    ensures Sorted(r)
    ensures multiset(r) == multiset(s)
    ensures |r| == |s|
    decreases |s|
  {
    if s == [] then []
    else
      assert s == [s[0]] + s[1..];
      Insert(s[0], Sort(s[1..]))
  }

  /** How many elements of `s` satisfy `p`. */
  function Count(s: seq<real>, p: real -> bool): (c: nat)
    ensures c <= |s|
    decreases |s|
  {
    if s == [] then 0 else (if p(s[0]) then 1 else 0) + Count(s[1..], p)
  }

  lemma {:induction false} CountInsert(x: real, s: seq<real>, p: real -> bool)
    requires Sorted(s)
    ensures Count(Insert(x, s), p) == (if p(x) then 1 else 0) + Count(s, p)
    decreases |s|
  {
    if s == [] {
      assert Insert(x, s) == [x];
    } else if x <= s[0] {
      assert ([x] + s)[1..] == s;
    } else {
      var t := Insert(x, s[1..]);
      CountInsert(x, s[1..], p);
      assert Insert(x, s) == [s[0]] + t;
      assert ([s[0]] + t)[1..] == t;
      assert Count(s, p) == (if p(s[0]) then 1 else 0) + Count(s[1..], p);
    }
  }

  /** Sorting does not change how many elements satisfy a predicate. */
  lemma {:induction false} CountSort(s: seq<real>, p: real -> bool)
    ensures Count(Sort(s), p) == Count(s, p)
    decreases |s|
  {
    if s != [] {
      CountSort(s[1..], p);
      CountInsert(s[0], Sort(s[1..]), p);
    }
  }

  /** Elements strictly above `t`. */
  function Above(t: real): real -> bool {
    v => v > t
  }

  /** Elements strictly below `t`. */
  function Below(t: real): real -> bool {
    v => v < t
  }

  /** In a sorted sequence, only elements after position k exceed `s[k]` and only elements before it fall below. */
  lemma {:induction false} CountSorted(s: seq<real>, k: nat)
    requires Sorted(s) && k < |s|
    ensures Count(s, Above(s[k])) <= |s| - k - 1
    ensures Count(s, Below(s[k])) <= k
    decreases |s|
  {
    if k == 0 {
      assert Count(s, Above(s[0])) == Count(s[1..], Above(s[0]));
      BelowMinimum(s, s[0]);
    } else {
      assert s[1..][k - 1] == s[k];
      CountSorted(s[1..], k - 1);
    }
  }

  /** No element of a sorted sequence falls below a value at most its first element. */
  lemma {:induction false} BelowMinimum(s: seq<real>, t: real)
    requires Sorted(s) && (s == [] || t <= s[0])
    ensures Count(s, Below(t)) == 0
    decreases |s|
  {
    if s != [] {
      BelowMinimum(s[1..], t);
    }
  }

  /** `Math.max(0, Math.floor(n * 0.95) - 1)`. */
  function P95Index(n: nat): (k: int)
    ensures 0 <= k
    ensures n > 0 ==> k < n
    ensures n >= 2 ==> k + 1 == ((n as real) * 0.95).Floor
  {
    var f := ((n as real) * 0.95).Floor;
    if f - 1 > 0 then f - 1 else 0
  }

  /**
   * The reported p95 frame time: 0 with fewer than two timestamps, otherwise
   * an actual interval with at most `n − P95Index(n) − 1` of the `n`
   * intervals above it.
   */
  function FrameMsP95(ts: seq<real>): (p: real)
    ensures |ts| < 2 ==> p == 0.0
    ensures |ts| >= 2 ==> p in multiset(Intervals(ts))
    ensures |ts| >= 2 ==>
      Count(Intervals(ts), Above(p)) <= |Intervals(ts)| - P95Index(|Intervals(ts)|) - 1
    ensures |ts| >= 2 ==>
      Count(Intervals(ts), Below(p)) <= P95Index(|Intervals(ts)|)
  {
    P95Of(Intervals(ts))
  }

  /** The p95 pick over a sequence of intervals: sort, then index `P95Index(n)`. */
  function P95Of(iv: seq<real>): (p: real)
    ensures |iv| == 0 ==> p == 0.0
    ensures |iv| > 0 ==> p in multiset(iv)
    ensures |iv| > 0 ==> Count(iv, Above(p)) <= |iv| - P95Index(|iv|) - 1
    ensures |iv| > 0 ==> Count(iv, Below(p)) <= P95Index(|iv|)
  {
    var d := Sort(iv);
    if |d| == 0 then 0.0
    else
      var k := P95Index(|d|);
      assert d[k] in multiset(d);
      CountSorted(d, k);
      CountSort(iv, Above(d[k]));
      CountSort(iv, Below(d[k]));
      d[k]
  }

  /** The 60 fps frame budget in milliseconds. */
  const FrameBudgetMs: real := 16.7

  /** The share of intervals above the frame budget (0 when there are none). */
  function FramesOver16p(ts: seq<real>): (q: real)
    ensures 0.0 <= q <= 1.0
    ensures |ts| < 2 ==> q == 0.0
    ensures |ts| >= 2 ==> q == Share(Count(Intervals(ts), Above(FrameBudgetMs)), |Intervals(ts)|)
  {
    var iv := Intervals(ts);
    var d := Sort(iv);
    if |d| == 0 then 0.0
    else
      CountSort(iv, Above(FrameBudgetMs));
      Share(Count(d, Above(FrameBudgetMs)), |d|)
  }

  /** `c / n` for a count `c` out of `n > 0`. */
  function Share(c: nat, n: nat): (q: real)
    requires 0 < n && c <= n
    ensures 0.0 <= q <= 1.0
    ensures q * n as real == c as real
  {
    var q := c as real / n as real;
    assert q * n as real == c as real;
    assert q <= 1.0 by {
      if q > 1.0 {
        assert q * n as real > 1.0 * n as real;
      }
    }
    q
  }

  /** `frames * 1000 / Math.max(1, elapsedMs)`: the divisor is at least 1. */
  function Fps(frames: nat, elapsedMs: real): (f: real)
    ensures f >= 0.0
    ensures elapsedMs >= 1.0 ==> f * elapsedMs == frames as real * 1000.0
    ensures elapsedMs < 1.0 ==> f == frames as real * 1000.0
  {
    var divisor := if elapsedMs >= 1.0 then elapsedMs else 1.0;
    frames as real * 1000.0 / divisor
  }

  /** `usedJSHeapSize / (1024 * 1024)`, absent when the browser gives no heap figure. */
  function MemoryMB(heapBytes: Option<real>): (m: Option<real>)
    ensures m.Some? <==> heapBytes.Some?
    ensures m.Some? ==> m.value * 1048576.0 == heapBytes.value
  {
    match heapBytes
    case Some(b) => Some(b / 1048576.0)
    case None => None
  }

  /** The object `collectMetrics` returns. */
  datatype Report = Report(
    fps: real,
    memoryMB: Option<real>,
    renderTimeMs: real,
    frameMsP95: real,
    framesOver16p: real,
    longTasks: nat,
    longTasksTotalMs: real)

  /** `collectMetrics(elapsedMs)` over the renderer's counters and a heap sample. */
  function Collect(frames: nat, ts: seq<real>, longTasks: nat, longTasksTotalMs: real,
                   elapsedMs: real, heapBytes: Option<real>): (r: Report)
    ensures r.fps >= 0.0 && r.fps == Fps(frames, elapsedMs)
    ensures 0.0 <= r.framesOver16p <= 1.0
    ensures r.renderTimeMs == elapsedMs
    ensures |ts| >= 2 ==> r.frameMsP95 in multiset(Intervals(ts))
    ensures |ts| >= 2 ==>
      Count(Intervals(ts), Above(r.frameMsP95)) <= |Intervals(ts)| - P95Index(|Intervals(ts)|) - 1
    ensures |ts| >= 2 ==> Count(Intervals(ts), Below(r.frameMsP95)) <= P95Index(|Intervals(ts)|)
    ensures |ts| >= 2 ==> r.framesOver16p == Share(Count(Intervals(ts), Above(FrameBudgetMs)), |Intervals(ts)|)
    ensures |ts| < 2 ==> r.frameMsP95 == 0.0 && r.framesOver16p == 0.0
    ensures r.longTasks == longTasks && r.longTasksTotalMs == longTasksTotalMs
    ensures r.memoryMB.Some? <==> heapBytes.Some?
    ensures r.memoryMB.Some? ==> r.memoryMB.value * 1048576.0 == heapBytes.value
  {
    Report(Fps(frames, elapsedMs), MemoryMB(heapBytes), elapsedMs,
           FrameMsP95(ts), FramesOver16p(ts), longTasks, longTasksTotalMs)
  }

  /** Among the intervals `[10, 10, 10, 10, 20]`, only 10 has at most three intervals below it. */
  lemma OnlyTenQualifies(p: real)
    requires p in multiset([10.0, 10.0, 10.0, 10.0, 20.0])
    requires Count([10.0, 10.0, 10.0, 10.0, 20.0], Below(p)) <= 3
    ensures p == 10.0
  {
    assert p in [10.0, 10.0, 10.0, 10.0, 20.0];
  }

  /** The p95 pick over the intervals `[10, 10, 10, 10, 20]` is 10. */
  lemma P95OfExample(iv: seq<real>)
    requires iv == [10.0, 10.0, 10.0, 10.0, 20.0]
    ensures P95Of(iv) == 10.0
  {
    OnlyTenQualifies(P95Of(iv));
  }

  /** Worked case: intervals [10, 10, 10, 10, 20] give index floor(4.75) − 1 = 3, so p95 is 10, not 20. */
  lemma P95Example(ts: seq<real>)
    requires Intervals(ts) == [10.0, 10.0, 10.0, 10.0, 20.0]
    ensures P95Index(5) == 3
    ensures FrameMsP95(ts) == 10.0
  {
    assert ((5 as real) * 0.95).Floor == 4;
    P95OfExample(Intervals(ts));
  }

  /** Timestamps 0, 10, 20, 30, 40, 60 have the intervals of the worked case. */
  lemma IntervalsExample()
    ensures Intervals([0.0, 10.0, 20.0, 30.0, 40.0, 60.0]) == [10.0, 10.0, 10.0, 10.0, 20.0]
  {
    var ts := [0.0, 10.0, 20.0, 30.0, 40.0, 60.0];
    var d := Intervals(ts);
    assert |d| == 5;
    assert d[0] == 10.0 && d[1] == 10.0 && d[2] == 10.0 && d[3] == 10.0 && d[4] == 20.0;
  }
}

=== FILE: numbers.dfy ===
/** `Math.min` / `Math.max` on reals, shared by the coordinator, the renderer and the history bounds. */
module Numbers {

  function Min(a: real, b: real): (m: real)
    ensures m <= a && m <= b && (m == a || m == b)
  {
    if a <= b then a else b
  }

  function Max(a: real, b: real): (m: real)
    ensures m >= a && m >= b && (m == a || m == b)
  {
    if a >= b then a else b
  }
}

=== FILE: renderer.dfy ===
/**
 * The React renderer's test lifecycle (react-app/src/App.js): the run guard
 * and reset of `startTest`, the bounded frame-timestamp history, long-task
 * totals, the progress interval that reports and finishes the run, and the
 * PING / START_TEST dispatch. Drawing is left out; each animation frame,
 * long-task observation and interval tick is a transition that takes the
 * clock readings it would make as inputs.
 */
module Renderer {
  import opened Wrappers
  import opened Wire
  import opened FrameStats
  import opened Numbers

  /** Past this many timestamps the history is trimmed … */
  const HistoryLimit: nat := 2000
  /** … down to this many of the most recent ones. */
  const HistoryKeep: nat := 1000
  const DefaultDurationMs: real := 5000.0

  /** The renderer's refs: run flag, test id, duration, frame count, timestamps, long-task totals, start time. */
  datatype State = State(
    running: bool,
    testId: TestId,
    durationMs: real,
    frames: nat,
    ts: seq<real>,
    longTasks: nat,
    longTasksTotalMs: real,
    startMs: real)

  const Init: State := State(false, Str(""), DefaultDurationMs, 0, [], 0, 0.0, 0.0)

  /** The history stays bounded and the progress divisor is never zero. */
  predicate Valid(st: State) {
    |st.ts| <= HistoryLimit && st.durationMs != 0.0
  }

  predicate IsSuffix(a: seq<real>, b: seq<real>) {
    |a| <= |b| && a == b[|b| - |a|..]
  }

  /** `push(now)`, then `splice(0, length - 1000)` once the length exceeds 2000. */
  function PushTimestamp(buf: seq<real>, now: real): (r: seq<real>)
    ensures IsSuffix(r, buf + [now])
    ensures |r| == if |buf| + 1 > HistoryLimit then HistoryKeep else |buf| + 1
    ensures |buf| <= HistoryLimit ==> |r| <= HistoryLimit
    ensures r[|r| - 1] == now
  {
    var b := buf + [now];
    if |b| > HistoryLimit then b[|b| - HistoryKeep..] else b
  }

  /** The bookkeeping at the end of each `animate` frame. */
  function Frame(st: State, now: real): (st': State)
    ensures st'.frames == st.frames + 1
    ensures st'.ts == PushTimestamp(st.ts, now)
    ensures st' == st.(frames := st'.frames, ts := st'.ts)
  {
    st.(frames := st.frames + 1, ts := PushTimestamp(st.ts, now))
  }

  /** A `longtask` entry seen by the performance observer. */
  function LongTask(st: State, durationMs: real): (st': State)
    ensures st'.longTasks == st.longTasks + 1
    ensures st'.longTasksTotalMs == st.longTasksTotalMs + durationMs
    ensures st' == st.(longTasks := st'.longTasks, longTasksTotalMs := st'.longTasksTotalMs)
  {
    st.(longTasks := st.longTasks + 1, longTasksTotalMs := st.longTasksTotalMs + durationMs)
  }

  /** `payload?.durationMs || 5000`: a missing payload or a zero duration falls back to 5000. */
  function DurationOf(payload: Option<Config>): (d: real)
    ensures d != 0.0
    ensures payload.Some? && payload.value.durationMs != 0.0 ==> d == payload.value.durationMs
    ensures payload.None? || payload.value.durationMs == 0.0 ==> d == DefaultDurationMs
  {
    if payload.Some? && payload.value.durationMs != 0.0 then payload.value.durationMs else DefaultDurationMs
  }

  /**
   * `startTest`: ignored while a run is going; otherwise it resets the
   * counters, records the id and duration, and draws the first frame
   * (`now` is the start time, `firstFrameAt` the first frame's timestamp).
   */
  function StartTest(st: State, testId: TestId, payload: Option<Config>, now: real, firstFrameAt: real): (st': State)
    ensures st.running ==> st' == st
    ensures !st.running ==>
      && st'.running
      && st'.testId == testId
      && st'.durationMs == DurationOf(payload)
      && st'.startMs == now
      && st'.frames == 1 && st'.ts == [firstFrameAt]
      && st'.longTasks == 0 && st'.longTasksTotalMs == 0.0
  {
    if st.running then st
    else
      var reset := State(true, testId, DurationOf(payload), 0, [], 0, 0.0, now);
      Frame(reset, firstFrameAt)
  }

  /** `Math.min(1, elapsed / durationMs)`. */
  function ProgressAt(st: State, now: real): (p: real)
    requires st.durationMs != 0.0
    ensures p <= 1.0
    ensures st.durationMs > 0.0 ==> (p >= 1.0 <==> now - st.startMs >= st.durationMs)
    ensures st.durationMs > 0.0 && now >= st.startMs ==> p >= 0.0
    ensures st.durationMs > 0.0 && p < 1.0 ==> p * st.durationMs == now - st.startMs
  {
    var p := Min(1.0, (now - st.startMs) / st.durationMs);
    assert st.durationMs > 0.0 ==> ((now - st.startMs) / st.durationMs >= 1.0 <==> now - st.startMs >= st.durationMs);
    p
  }

  /** `collectMetrics(elapsedMs)` over the current counters. */
  function CollectAt(st: State, elapsedMs: real, heapBytes: Option<real>): (r: Report)
    ensures r.renderTimeMs == elapsedMs && r.fps >= 0.0 && r.fps == Fps(st.frames, elapsedMs)
    ensures r.longTasks == st.longTasks && r.longTasksTotalMs == st.longTasksTotalMs
    ensures |st.ts| >= 2 ==> r.frameMsP95 in multiset(Intervals(st.ts))
    ensures |st.ts| >= 2 ==>
      Count(Intervals(st.ts), Above(r.frameMsP95)) <= |Intervals(st.ts)| - P95Index(|Intervals(st.ts)|) - 1
    ensures |st.ts| >= 2 ==> Count(Intervals(st.ts), Below(r.frameMsP95)) <= P95Index(|Intervals(st.ts)|)
    ensures |st.ts| >= 2 ==>
      r.framesOver16p == Share(Count(Intervals(st.ts), Above(FrameBudgetMs)), |Intervals(st.ts)|)
    ensures |st.ts| < 2 ==> r.frameMsP95 == 0.0 && r.framesOver16p == 0.0
    ensures r.memoryMB.Some? <==> heapBytes.Some?
    ensures r.memoryMB.Some? ==> r.memoryMB.value * 1048576.0 == heapBytes.value
  {
    Collect(st.frames, st.ts, st.longTasks, st.longTasksTotalMs, elapsedMs, heapBytes)
  }

  /** The metrics object as it travels to the coordinator: every field present except, possibly, memory. */
  function ToWire(r: Report): (m: WireMetrics)
    ensures m.fps == Some(r.fps) && m.memoryMB == r.memoryMB && m.renderTimeMs == Some(r.renderTimeMs)
    ensures m.frameMsP95 == Some(r.frameMsP95) && m.framesOver16p == Some(r.framesOver16p)
    ensures m.longTasks == Some(r.longTasks as real) && m.longTasksTotalMs == Some(r.longTasksTotalMs)
  {
    WireMetrics(Some(r.fps), r.memoryMB, Some(r.renderTimeMs), Some(r.frameMsP95), Some(r.framesOver16p),
                Some(r.longTasks as real), Some(r.longTasksTotalMs))
  }

  /** A transition's new state and the messages it sends to the coordinator, in order. */
  datatype Out = Out(state: State, sent: seq<Body>)

  /** The clock and heap readings one interval tick makes: for the reports, and again inside `finish`. */
  datatype Readings = Readings(now: real, heapBytes: Option<real>, finishNow: real, finishHeapBytes: Option<real>)

  /**
   * One tick of the 100 ms interval. A stopped run sends nothing. A running
   * one sends PROGRESS and METRICS; once the progress reaches 1 it also
   * finishes: the run stops and a COMPLETE with fresh metrics follows.
   */
  function Tick(st: State, r: Readings): (o: Out)
    requires st.durationMs != 0.0
    ensures !st.running ==> o == Out(st, [])
    ensures st.running ==> o.state == st.(running := ProgressAt(st, r.now) < 1.0)
    ensures st.running ==> |o.sent| == (if ProgressAt(st, r.now) >= 1.0 then 3 else 2)
    ensures st.running ==> o.sent[0] == Progress(st.testId, Some(ProgressAt(st, r.now)))
    ensures st.running ==> o.sent[1] == Metrics(st.testId, Some(ToWire(CollectAt(st, r.now - st.startMs, r.heapBytes))))
    ensures st.running && |o.sent| == 3 ==>
      o.sent[2] == Complete(st.testId, Some(ToWire(CollectAt(st, r.finishNow - st.startMs, r.finishHeapBytes))))
  {
    if !st.running then Out(st, [])
    else
      var p := ProgressAt(st, r.now);
      var reports := [Progress(st.testId, Some(p)),
                      Metrics(st.testId, Some(ToWire(CollectAt(st, r.now - st.startMs, r.heapBytes))))];
      if p >= 1.0 then
        var final := CollectAt(st, r.finishNow - st.startMs, r.finishHeapBytes);
        Out(st.(running := false), reports + [Complete(st.testId, Some(ToWire(final)))])
      else Out(st, reports)
  }

  /** `onMessage`: PING is answered with READY, START_TEST starts a run, anything else is ignored. */
  function OnMessage(st: State, body: Body, now: real, firstFrameAt: real): (o: Out)
    ensures body == Ping ==> o == Out(st, [Ready])
    ensures body.StartTest? ==> o == Out(StartTest(st, body.testId, body.payload, now, firstFrameAt), [])
    ensures body != Ping && !body.StartTest? ==> o == Out(st, [])
  {
    match body
    case Ping => Out(st, [Ready])
    case StartTest(id, payload) => Out(StartTest(st, id, payload, now, firstFrameAt), [])
    case _ => Out(st, [])
  }
}

=== FILE: renderer_props.dfy ===
/** Properties of the renderer lifecycle: bounded history, run guard and a single finish per run. */
module RendererProps {
  import opened Wire
  import opened Renderer
  import opened Numbers

  /** The history after pushing each of `xs` in turn. */
  function PushAll(buf: seq<real>, xs: seq<real>): seq<real>
    decreases |xs|
  {
    if xs == [] then buf else PushAll(PushTimestamp(buf, xs[0]), xs[1..])
  }

  lemma SuffixAppend(a: seq<real>, b: seq<real>, c: seq<real>)
    requires IsSuffix(a, b)
    ensures IsSuffix(a + c, b + c)
  {
    assert (b + c)[|b + c| - |a + c|..] == b[|b| - |a|..] + c;
  }

  lemma SuffixTrans(a: seq<real>, b: seq<real>, c: seq<real>)
    requires IsSuffix(a, b) && IsSuffix(b, c)
    ensures IsSuffix(a, c)
  {
    assert c[|c| - |a|..] == c[|c| - |b|..][|b| - |a|..];
  }


  /** One push followed by the remaining timestamps is still a suffix of everything pushed. */
  lemma PushStepSuffix(buf: seq<real>, xs: seq<real>)
    requires xs != []
    ensures IsSuffix(PushTimestamp(buf, xs[0]) + xs[1..], buf + xs)
  {
    SuffixAppend(PushTimestamp(buf, xs[0]), buf + [xs[0]], xs[1..]);
    assert buf + [xs[0]] + xs[1..] == buf + xs;
  }

  /** However many frames are pushed, the history is the most recent part of everything pushed. */
  lemma {:induction false} HistoryIsSuffix(buf: seq<real>, xs: seq<real>)
    ensures IsSuffix(PushAll(buf, xs), buf + xs)
    decreases |xs|
  {
    if xs == [] {
      assert buf + xs == buf;
    } else {
      var b1 := PushTimestamp(buf, xs[0]);
      HistoryIsSuffix(b1, xs[1..]);
      PushStepSuffix(buf, xs);
      SuffixTrans(PushAll(b1, xs[1..]), b1 + xs[1..], buf + xs);
    }
  }

  /** The history never holds more than 2000 timestamps, and holds at least the last min(total, 1000). */
  lemma {:induction false} HistoryBounds(buf: seq<real>, xs: seq<real>)
    requires |buf| <= HistoryLimit
    ensures Min((|buf| + |xs|) as real, HistoryKeep as real) <= |PushAll(buf, xs)| as real
    ensures |PushAll(buf, xs)| <= HistoryLimit
    decreases |xs|
  {
    if xs != [] {
      var b1 := PushTimestamp(buf, xs[0]);
      assert |b1| as real >= Min((|buf| + 1) as real, HistoryKeep as real);
      HistoryBounds(b1, xs[1..]);
    }
  }

  /**
   * However many frames are pushed, the history is the most recent part of
   * everything pushed, holds at least the last min(total, 1000) timestamps
   * and never more than 2000.
   */
  lemma HistoryIsRecentWindow(buf: seq<real>, xs: seq<real>)
    requires |buf| <= HistoryLimit
    ensures IsSuffix(PushAll(buf, xs), buf + xs)
    ensures Min((|buf| + |xs|) as real, HistoryKeep as real) <= |PushAll(buf, xs)| as real
    ensures |PushAll(buf, xs)| <= HistoryLimit
  {
    HistoryIsSuffix(buf, xs);
    HistoryBounds(buf, xs);
  }

  /** Once a tick has finished the run, later ticks send nothing and change nothing. */
  lemma FinishesOnce(st: State, r1: Readings, r2: Readings)
    requires st.durationMs != 0.0 && st.running
    requires ProgressAt(st, r1.now) >= 1.0
    ensures !Tick(st, r1).state.running
    ensures Tick(Tick(st, r1).state, r2) == Out(Tick(st, r1).state, [])
  {
  }

  /** A run finishes at the first tick whose progress reaches 1, and every report names the run's test id. */
  lemma TickReportsRunId(st: State, r: Readings)
    requires st.durationMs != 0.0 && st.running
    ensures Tick(st, r).state.running <==> ProgressAt(st, r.now) < 1.0
    ensures forall i :: 0 <= i < |Tick(st, r).sent| ==>
      (Tick(st, r).sent[i].Progress? || Tick(st, r).sent[i].Metrics? || Tick(st, r).sent[i].Complete?)
      && Tick(st, r).sent[i].testId == st.testId
    ensures (exists i :: 0 <= i < |Tick(st, r).sent| && Tick(st, r).sent[i].Complete?) <==> ProgressAt(st, r.now) >= 1.0
  {
    var o := Tick(st, r);
    forall i | 0 <= i < |o.sent|
      ensures (o.sent[i].Progress? || o.sent[i].Metrics? || o.sent[i].Complete?) && o.sent[i].testId == st.testId
    {
      if i == 0 {
      } else if i == 1 {
      } else {
        assert i == 2;
      }
    }
    if ProgressAt(st, r.now) >= 1.0 {
      assert o.sent[2].Complete?;
    } else {
      assert |o.sent| == 2 && !o.sent[0].Complete? && !o.sent[1].Complete?;
    }
  }

  /** Every transition keeps the history bounded and the duration non-zero. */
  lemma ValidPreserved(st: State, now: real, firstFrameAt: real, dur: real, b: Body, r: Readings)
    requires Valid(st)
    ensures Valid(Frame(st, now))
    ensures Valid(LongTask(st, dur))
    ensures Valid(OnMessage(st, b, now, firstFrameAt).state)
    ensures Valid(Tick(st, r).state)
  {
  }

  /** The renderer starts in a valid state. */
  lemma InitValid()
    ensures Valid(Init) && !Init.running && Init.durationMs == 5000.0
    ensures Init.ts == [] && Init.frames == 0 && Init.longTasks == 0 && Init.longTasksTotalMs == 0.0 && Init.testId == Str("")
  {
  }

  /** A START_TEST during a run is ignored entirely; otherwise the new run's counters restart. */
  lemma RunGuard(st: State, b: Body, now: real, firstFrameAt: real)
    requires b.StartTest?
    ensures st.running ==> OnMessage(st, b, now, firstFrameAt) == Out(st, [])
    ensures !st.running ==>
      var st' := OnMessage(st, b, now, firstFrameAt).state;
      st'.running && st'.testId == b.testId && st'.frames == 1 && st'.longTasks == 0
  {
  }
}

=== FILE: scoring.dfy ===
/**
 * The coordinator's comparison of the two final snapshots (`finishTest`
 * and `scoreOverall`). Missing values are defaulted the JavaScript way:
 * `x || 0` for frame rate and `x || Infinity` for memory and render time,
 * so a reported 0 counts the same as an absent value. Comparisons are
 * strict and there is no tie tolerance.
 */
module Scoring {
  import opened Wrappers
  import opened Wire

  /** The three fields the coordinator keeps per app; `None` is `null`. */
  datatype Snapshot = Snapshot(fps: Option<real>, memoryMB: Option<real>, renderTimeMs: Option<real>)

  const Unknown: Snapshot := Snapshot(None, None, None)

  /** A real or positive infinity. */
  datatype Ext = Fin(v: real) | Inf

  /** Strict `<` on reals extended with +∞. */
  predicate Less(a: Ext, b: Ext) {
    match (a, b)
    case (Fin(x), Fin(y)) => x < y
    case (Fin(_), Inf) => true
    case (Inf, _) => false
  }

  /** `x || 0`: absent and 0 both read as 0. */
  function OrZero(x: Option<real>): (r: real)
    ensures x.None? ==> r == 0.0
    ensures x.Some? ==> r == x.value
  {
    match x
    case Some(v) => v
    case None => 0.0
  }

  /** `x || Infinity`: absent and 0 both read as +∞. */
  function OrInf(x: Option<real>): (r: Ext)
    ensures r == Inf <==> (x.None? || x == Some(0.0))
    ensures r.Fin? ==> x == Some(r.v)
  {
    match x
    case Some(v) => if v == 0.0 then Inf else Fin(v)
    case None => Inf
  }

  /** The compared metrics: higher fps is better, lower memory and render time are better. */
  datatype Metric = Fps | Memory | Render

  /** Whether `a` is strictly better than `b` on metric `m`. */
  predicate Better(m: Metric, a: Snapshot, b: Snapshot) {
    match m
    case Fps => OrZero(a.fps) > OrZero(b.fps)
    case Memory => Less(OrInf(a.memoryMB), OrInf(b.memoryMB))
    case Render => Less(OrInf(a.renderTimeMs), OrInf(b.renderTimeMs))
  }

  /** The per-metric winner shown in the summary: Flutter on a strict advantage, React otherwise. */
  function Winner(m: Metric, f: Snapshot, r: Snapshot): (w: App)
    ensures w == Flutter <==> Better(m, f, r)
  {
    if Better(m, f, r) then Flutter else React
  }

  /** One metric's contribution to `(scoreF, scoreR)`, with the source's if / else-if. */
  function Tally(m: Metric, f: Snapshot, r: Snapshot): (t: (nat, nat))
    ensures t.0 + t.1 <= 1
    ensures t.0 == 1 <==> Better(m, f, r)
    ensures t.1 == 1 <==> Better(m, r, f)
  {
    if Better(m, f, r) then (1, 0)
    else if Better(m, r, f) then (0, 1)
    else (0, 0)
  }

  /** `(scoreF, scoreR)` of `scoreOverall`: the metrics each side wins strictly. */
  function Scores(f: Snapshot, r: Snapshot): (s: (nat, nat))
    ensures s.0 <= 3 && s.1 <= 3
    ensures s.0 + s.1 <= 3
  {
    var a := Tally(Fps, f, r);
    var b := Tally(Memory, f, r);
    var c := Tally(Render, f, r);
    (a.0 + b.0 + c.0, a.1 + b.1 + c.1)
  }

  /** The overall verdict. */
  datatype Verdict = Won(app: App) | Tie

  function Swap(v: Verdict): Verdict {
    match v
    case Won(a) => Won(a.Other())
    case Tie => Tie
  }

  /** `scoreOverall`: the side with more points wins; equal points are a tie. */
  function ScoreOverall(f: Snapshot, r: Snapshot): (v: Verdict)
    ensures v == Won(Flutter) ==> Better(Fps, f, r) || Better(Memory, f, r) || Better(Render, f, r)
    ensures v == Won(React) ==> Better(Fps, r, f) || Better(Memory, r, f) || Better(Render, r, f)
  {
    var s := Scores(f, r);
    if s.0 == s.1 then Tie
    else if s.0 > s.1 then Won(Flutter)
    else Won(React)
  }

  /** What the results summary shows. */
  datatype Summary = Summary(fps: App, memory: App, render: App, overall: Verdict)

  function Summarize(f: Snapshot, r: Snapshot): (s: Summary)
    ensures s.fps == Flutter <==> Better(Fps, f, r)
    ensures s.memory == Flutter <==> Better(Memory, f, r)
    ensures s.render == Flutter <==> Better(Render, f, r)
    ensures s.overall == ScoreOverall(f, r)
    ensures s.overall == Won(Flutter) ==> s.fps == Flutter || s.memory == Flutter || s.render == Flutter
    ensures s.overall == Won(React) ==> s.fps == React || s.memory == React || s.render == React
  {
    Summary(Winner(Fps, f, r), Winner(Memory, f, r), Winner(Render, f, r), ScoreOverall(f, r))
  }

  /** Strict comparison on extended reals is asymmetric. */
  lemma LessAsymmetric(a: Ext, b: Ext)
    ensures !(Less(a, b) && Less(b, a))
  {
  }

  /** At most one side is strictly better on any metric. */
  lemma BetterAsymmetric(m: Metric, a: Snapshot, b: Snapshot)
    ensures !(Better(m, a, b) && Better(m, b, a))
  {
    match m
    case Fps =>
    case Memory => LessAsymmetric(OrInf(a.memoryMB), OrInf(b.memoryMB));
    case Render => LessAsymmetric(OrInf(a.renderTimeMs), OrInf(b.renderTimeMs));
  }

  /** Swapping the two snapshots swaps the two scores. */
  lemma ScoresSwap(f: Snapshot, r: Snapshot)
    ensures Scores(r, f) == (Scores(f, r).1, Scores(f, r).0)
  {
    BetterAsymmetric(Fps, f, r);
    BetterAsymmetric(Memory, f, r);
    BetterAsymmetric(Render, f, r);
  }

  /** The verdict is a tie exactly when the scores are equal, and otherwise names the higher score. */
  lemma ScoreOverallMeaning(f: Snapshot, r: Snapshot)
    ensures ScoreOverall(f, r) == Tie <==> Scores(f, r).0 == Scores(f, r).1
    ensures ScoreOverall(f, r) == Won(Flutter) <==> Scores(f, r).0 > Scores(f, r).1
    ensures ScoreOverall(f, r) == Won(React) <==> Scores(f, r).0 < Scores(f, r).1
  {
  }

  /** Scoring is antisymmetric: exchanging the snapshots exchanges Flutter and React in the verdict. */
  lemma ScoreOverallSwap(f: Snapshot, r: Snapshot)
    ensures ScoreOverall(r, f) == Swap(ScoreOverall(f, r))
  {
    ScoresSwap(f, r);
  }

  /** A snapshot compared with itself is a tie overall, yet React wins every per-metric line. */
  lemma EqualSnapshots(s: Snapshot)
    ensures ScoreOverall(s, s) == Tie
    ensures Summarize(s, s) == Summary(React, React, React, Tie)
  {
    BetterAsymmetric(Fps, s, s);
    BetterAsymmetric(Memory, s, s);
    BetterAsymmetric(Render, s, s);
  }

  /** 1 for a true condition, 0 otherwise: how a per-metric line adds to a tally of lines. */
  function CountTrue(b: bool): nat {
    if b then 1 else 0
  }

  /** Flutter's score is exactly the number of per-metric lines that name Flutter. */
  lemma FlutterScoreCountsWinners(f: Snapshot, r: Snapshot)
    ensures Scores(f, r).0
         == CountTrue(Winner(Fps, f, r) == Flutter) + CountTrue(Winner(Memory, f, r) == Flutter)
          + CountTrue(Winner(Render, f, r) == Flutter)
  {
  }

  /**
   * React's score never exceeds the number of lines that name React, and
   * equals it exactly when no metric is level.
   */
  lemma ReactScoreAtMostWinners(f: Snapshot, r: Snapshot)
    ensures Scores(f, r).1
         <= CountTrue(Winner(Fps, f, r) == React) + CountTrue(Winner(Memory, f, r) == React)
          + CountTrue(Winner(Render, f, r) == React)
    ensures Scores(f, r).1
         == CountTrue(Winner(Fps, f, r) == React) + CountTrue(Winner(Memory, f, r) == React)
          + CountTrue(Winner(Render, f, r) == React)
       <==> (forall m: Metric :: Better(m, f, r) || Better(m, r, f))
  {
    BetterAsymmetric(Fps, f, r);
    BetterAsymmetric(Memory, f, r);
    BetterAsymmetric(Render, f, r);
    if forall m: Metric :: Better(m, f, r) || Better(m, r, f) {
    } else {
      var m: Metric :| !(Better(m, f, r) || Better(m, r, f));
      assert m == Fps || m == Memory || m == Render;
    }
  }

  /** The zero and infinity defaults cannot tell a reported 0 from an absent value. */
  lemma ZeroReadsAsAbsent()
    ensures OrZero(Some(0.0)) == OrZero(None)
    ensures OrInf(Some(0.0)) == OrInf(None)
  {
  }

  /** Snapshots whose defaulted readings agree are scored identically. */
  lemma SameReadingsSameSummary(a: Snapshot, b: Snapshot, r: Snapshot)
    requires OrZero(a.fps) == OrZero(b.fps)
    requires OrInf(a.memoryMB) == OrInf(b.memoryMB)
    requires OrInf(a.renderTimeMs) == OrInf(b.renderTimeMs)
    ensures Summarize(a, r) == Summarize(b, r)
  {
    assert Tally(Fps, a, r) == Tally(Fps, b, r);
    assert Tally(Memory, a, r) == Tally(Memory, b, r);
    assert Tally(Render, a, r) == Tally(Render, b, r);
  }

  /** A reported 0 and an absent value score identically, on every metric. */
  lemma ZeroIsAbsent(f: Snapshot, r: Snapshot)
    ensures Summarize(f.(fps := Some(0.0)), r) == Summarize(f.(fps := None), r)
    ensures Summarize(f.(memoryMB := Some(0.0)), r) == Summarize(f.(memoryMB := None), r)
    ensures Summarize(f.(renderTimeMs := Some(0.0)), r) == Summarize(f.(renderTimeMs := None), r)
  {
    ZeroReadsAsAbsent();
    SameReadingsSameSummary(f.(fps := Some(0.0)), f.(fps := None), r);
    SameReadingsSameSummary(f.(memoryMB := Some(0.0)), f.(memoryMB := None), r);
    SameReadingsSameSummary(f.(renderTimeMs := Some(0.0)), f.(renderTimeMs := None), r);
  }

  /** Worked cases: a missing memory reading loses to any real one; one point each with a level metric is a tie; 60 fps beats 0 fps. */
  lemma ScoringExamples()
    ensures Winner(Memory, Snapshot(None, None, None), Snapshot(None, Some(50.0), None)) == React
    ensures Winner(Memory, Snapshot(None, Some(50.0), None), Snapshot(None, None, None)) == Flutter
    ensures ScoreOverall(Snapshot(Some(60.0), Some(80.0), Some(5000.0)), Snapshot(Some(59.0), Some(70.0), Some(5000.0))) == Tie
    ensures ScoreOverall(Snapshot(Some(60.0), None, None), Snapshot(Some(0.0), None, None)) == Won(Flutter)
  {
  }
}

=== FILE: wire.dfy ===
/**
 * The vocabulary shared by the coordinator page and the renderer apps:
 * which app a message concerns, per-app pairs of values, test identifiers
 * and the messages exchanged through `postMessage`.
 */
module Wire {
  import opened Wrappers

  /** The two benchmarked renderer apps. */
  datatype App = Flutter | React {
    function Other(): (o: App)
      ensures o != this
    {
      if this == Flutter then React else Flutter
    }
  }

  /** The `app` string a renderer puts on its messages. */
  function Name(a: App): (s: string)
    ensures AppNamed(s) == Some(a)
    ensures s != ""
  {
    match a
    case Flutter => "flutter"
    case React => "react"
  }

  /** Which app a non-empty `app` string designates: only the keys of the coordinator's frame table. */
  function AppNamed(s: string): (r: Option<App>)
    ensures r.Some? <==> s == "flutter" || s == "react"
  {
    if s == "flutter" then Some(Flutter)
    else if s == "react" then Some(React)
    else None
  }

  /** The frame table's keys and the renderers' `app` strings are the same two names, in both directions. */
  lemma NameRoundTrip(s: string, a: App)
    ensures AppNamed(s) == Some(a) <==> s == Name(a)
  {
  }

  /** One value per app, as in the coordinator's `{ flutter: …, react: … }` records. */
  datatype PerApp<T> = PerApp(flutter: T, react: T) {
    function Get(a: App): T {
      match a
      case Flutter => flutter
      case React => react
    }

    function Set(a: App, v: T): (r: PerApp<T>)
      ensures r.Get(a) == v
      ensures r.Get(a.Other()) == Get(a.Other())
    {
      match a
      case Flutter => this.(flutter := v)
      case React => this.(react := v)
    }
  }

  /** A `testId` field as it arrives in a message: `null`, missing, or a string. */
  datatype TestId = Null | Undefined | Str(s: string)

  /** The workload description the coordinator passes through to both renderers. */
  datatype Workload = Workload(
    testType: string,
    seed: int,
    particleCount: int,
    width: int,
    height: int,
    moveType: string,
    speed: real,
    amp: real)

  /** The `payload` of a START_TEST message. */
  datatype Config = Config(iterations: real, durationMs: real, spec: Workload)

  /** A metrics object on the wire; every field may be missing. */
  datatype WireMetrics = WireMetrics(
    fps: Option<real>,
    memoryMB: Option<real>,
    renderTimeMs: Option<real>,
    frameMsP95: Option<real>,
    framesOver16p: Option<real>,
    longTasks: Option<real>,
    longTasksTotalMs: Option<real>)

  const NoMetrics: WireMetrics := WireMetrics(None, None, None, None, None, None, None)

  /** The `type`-tagged body of a message; `Other` is any unrecognised or missing type. */
  datatype Body =
    | Ping
    | Ready
    | StartTest(testId: TestId, payload: Option<Config>)
    | Progress(testId: TestId, value: Option<real>)
    | Metrics(testId: TestId, metrics: Option<WireMetrics>)
    | Complete(testId: TestId, metrics: Option<WireMetrics>)
    | Error(message: string)
    | Other

  /** The transport origin of a message: a parsable URL with its port string, or not parsable. */
  datatype Origin = Url(port: string) | Malformed

  /** A message event as the coordinator receives it: the `app` field, the origin and the body. */
  datatype Envelope = Envelope(app: Option<string>, origin: Origin, body: Body)
}

=== FILE: wrappers.dfy ===
/** Optional values: JavaScript's `null` / `undefined` become `None`. */
module Wrappers {

  datatype Option<+T> = None | Some(value: T) {

    /** `this ?? fallback` for a plain value: what a form field or report holds, else the default. */
    function GetOr(fallback: T): (r: T)
      ensures Some? ==> r == value
      ensures None? ==> r == fallback
    {
      if Some? then value else fallback
    }

    /** `this ?? other`: keep this value when present, otherwise fall back. */
    function OrElse(other: Option<T>): (r: Option<T>)
      ensures Some? ==> r == this
      ensures None? ==> r == other
    {
      match this
      case Some(_) => this
      case None() => other
    }
  }
}
